=== FILE: README.md ===
# RCE project task: manifest references to encode items

This project models the logic of `RCEProjectTask`, a Transform Manager task that
turns the `ref` elements of a job manifest into one batch of Expression Encoder
media items. Each reference names an RCE project descriptor. For each parsed
project the task:

- picks the only sequence and its only visual track;
- resolves every shot's media reference to a file in the input folder;
- builds one encode item with one trimmed source per shot, in shot order;
- applies the resize mode from the project's output metadata, then the job's preset;
- adds the item to the job.

Any exception while handling one reference drops that reference and no other.
The model also covers the task's progress handler, which folds per-pass
progress into one percentage.

Modules, one file each:

- `outcomes.dfy`: `Outcomes`, the option and result types standing in for nulls and exceptions.
- `text.dfy`: `Text`, ordinal suffix and prefix tests, `LastIndexOf`, ASCII upper-casing.
- `project.dfy`: `ProjectModel`, the project graph, the encode item, the faults, and the encoder and host boundaries.
- `video_path.dfy`: `VideoPath`, the `ExtractVideoPath` logic.
- `selection.dfy`: `Selection`, the `SingleOrDefault` choice of the sequence and the visual track.
- `clip_assembly.dfy`: `ClipAssembly`, how the item's sources are built from the shots.
- `output_config.dfy`: `OutputConfig`, the resize-mode switch and preset application.
- `progress.dfy`: `Progress`, the `OnProgress` percentage.
- `pipeline.dfy`: `Pipeline`, per-reference handling and the batch loop with failure isolation.

The model stands in for the outside world as follows:

- Each reference arrives as the outcome of reading and parsing its descriptor (`ManifestRef.parsed`).
- The fresh GUID that names an item is a token carried by the reference.
- The input folder's directory listing is a parameter (`Host.listing`). It is `None` when the folder cannot be listed.
- The encoder is a record of oracles (`Encoder`):
  - whether a media file opens, since the media item and source constructors read the file;
  - whether a preset applies to an item;
  - whether the job accepts an item, given the items it already holds;
  - the resize mode a new item starts with.

The model keeps these behaviours of the code:

- The sequence is chosen with `SingleOrDefault`. Several sequences throw; they do not pick the first.
- The visual track is chosen with `SingleOrDefault` over tracks whose upper-cased type is `VISUAL`. Several visual tracks throw. No visual track leaves the track null, and the next line dereferences it. Both faults are absorbed per reference (`Fault.MultipleVisualTracks`, `Fault.NoVisualTrack`).
- Mark-in and mark-out are copied without a sign or order check. A missing mark becomes 0, so a shot with a positive mark-in and no mark-out gives a clip that ends before it starts (`ClipAssembly.ClipMarks`).
- The `.ism` search can fail as well as return nothing. `Directory.GetFiles` throws for a folder that cannot be listed, and that abandons the reference.

## Model

| member | source | states |
|---|---|---|
| Text.LastIndexOf | RCE.TransformManager/code/RCE.TransformManager.Tasks/RCEProjectTask.cs:274-277 | The result is -1 or a position holding `/`, and no later position holds `/` |
| VideoPath.StripManifest | RCE.TransformManager/code/RCE.TransformManager.Tasks/RCEProjectTask.cs:272-275 | Cutting at the last `/` removes exactly a trailing `/manifest`; any other reference is unchanged |
| VideoPath.FileNameOf | RCE.TransformManager/code/RCE.TransformManager.Tasks/RCEProjectTask.cs:277 | The file name holds no `/` and is a suffix of the reference, either all of it or the part after a `/` |
| VideoPath.RefFileName | RCE.TransformManager/code/RCE.TransformManager.Tasks/RCEProjectTask.cs:270-277 | The name taken from a shot reference never contains `/` |
| VideoPath.FileNameOfJoin | RCE.TransformManager/code/RCE.TransformManager.Tasks/RCEProjectTask.cs:277 | The file name of `dir/name` is `name` when `name` has no `/` |
| VideoPath.RefFileNameOfManifest | RCE.TransformManager/code/RCE.TransformManager.Tasks/RCEProjectTask.cs:270-277 | A reference `dir/name/manifest` yields `name`: the `/manifest` segment is removed before the last segment is taken |
| VideoPath.RefFileNameOfPlainRef | RCE.TransformManager/code/RCE.TransformManager.Tasks/RCEProjectTask.cs:270-277 | A reference `dir/name` that does not end in `/manifest` yields its last segment |
| VideoPath.FirstMatch | RCE.TransformManager/code/RCE.TransformManager.Tasks/RCEProjectTask.cs:281-290 | Finds the first listing entry matching `<base>*.ismv`, or none exactly when no entry matches |
| VideoPath.ChooseFileName | RCE.TransformManager/code/RCE.TransformManager.Tasks/RCEProjectTask.cs:279-291 | A non-`.ism` name is kept without searching. A `.ism` name becomes the first matching `.ismv` entry, or stays as it is when none matches. Searching an unlistable folder throws |
| VideoPath.SegmentedStreamExamples | RCE.TransformManager/code/RCE.TransformManager.Tasks/RCEProjectTask.cs:279-291 | `clip.ism` resolves to `clip_720.ismv` when that file is listed and to `clip.ism` when no `clip*.ismv` is listed; with no listing it throws |
| VideoPath.Combine | RCE.TransformManager/code/RCE.TransformManager.Tasks/RCEProjectTask.cs:293 | `Path.Combine`: a rooted name is returned alone. Otherwise the result is the folder, then at most one backslash, then the name; a backslash is inserted exactly when both parts are non-empty and the folder lacks a trailing separator |
| VideoPath.ExtractVideoPath | RCE.TransformManager/code/RCE.TransformManager.Tasks/RCEProjectTask.cs:268-294 | Fails exactly when the shot has no resource, or when its name ends in `.ism` and the folder cannot be listed. A non-`.ism` name gives the folder combined with that name. A `.ism` name in a listable folder gives the folder combined with the first listed `<base>*.ismv` entry, or with the name itself when no entry matches |
| VideoPath.NonIsmIgnoresListing | RCE.TransformManager/code/RCE.TransformManager.Tasks/RCEProjectTask.cs:279-293 | A reference whose name does not end in `.ism` resolves to the same path for every directory listing |
| Selection.SingleOrDefault | RCE.TransformManager/code/RCE.TransformManager.Tasks/RCEProjectTask.cs:157 | No element gives the default, exactly one element gives that element, several give the throwing outcome |
| Selection.IsVisualIgnoresCase | RCE.TransformManager/code/RCE.TransformManager.Tasks/RCEProjectTask.cs:161 | A track type is visual exactly when it is six characters, each the upper or lower case letter of `VISUAL` |
| Selection.VisualTracks | RCE.TransformManager/code/RCE.TransformManager.Tasks/RCEProjectTask.cs:161 | The filtered tracks are tracks of the sequence and all are visual |
| Selection.VisualTracksCount | RCE.TransformManager/code/RCE.TransformManager.Tasks/RCEProjectTask.cs:161 | The filter is empty exactly when no track is visual. It has one element only when a single track is visual, and two or more exactly when two tracks are visual |
| Selection.SelectVisualTrack | RCE.TransformManager/code/RCE.TransformManager.Tasks/RCEProjectTask.cs:161-163 | Succeeds exactly when one track is visual, and returns that track. Faults with no visual track exactly when none is visual, and with several exactly when two are |
| Selection.SelectTrack | RCE.TransformManager/code/RCE.TransformManager.Tasks/RCEProjectTask.cs:157-163 | No sequence exactly when there are none. Several sequences fault. With one sequence the track outcome is that of the visual-track choice |
| Selection.SelectsTheUniqueVisualTrack | RCE.TransformManager/code/RCE.TransformManager.Tasks/RCEProjectTask.cs:157-161 | A single sequence with exactly one visual track selects that track |
| ClipAssembly.OutputFileName | RCE.TransformManager/code/RCE.TransformManager.Tasks/RCEProjectTask.cs:173-174 | The output name is the token followed by the `.{Default Extension}` placeholder |
| ClipAssembly.ShotClip | RCE.TransformManager/code/RCE.TransformManager.Tasks/RCEProjectTask.cs:171-183 | A shot's source exists exactly when its path resolves and the encoder opens it. It carries that path and the shot's marks; an unopenable file faults with its path |
| ClipAssembly.Clips | RCE.TransformManager/code/RCE.TransformManager.Tasks/RCEProjectTask.cs:167-211 | Succeeds exactly when every shot's step succeeds, giving one clip per shot in shot order. Otherwise it fails with the fault of the first failing shot |
| ClipAssembly.Assemble | RCE.TransformManager/code/RCE.TransformManager.Tasks/RCEProjectTask.cs:167-211 | For N ≥ 1 shots the item has exactly N sources, source i from shot i and shot 0 first. It is named by the token and has the encoder's default resize mode. The first failing shot aborts it |
| ClipAssembly.ClipOf | RCE.TransformManager/code/RCE.TransformManager.Tasks/RCEProjectTask.cs:176-206 | A clip carries the resolved path. Its start is the mark-in, or 0 when there is none, and its end is the mark-out, or 0 when there is none |
| ClipAssembly.ClipMarks | RCE.TransformManager/code/RCE.TransformManager.Tasks/RCEProjectTask.cs:176-206 | In an assembled item, source i starts at shot i's mark-in and ends at its mark-out, each 0 when missing. A shot with a positive mark-in and no mark-out gives a source that ends before it starts |
| ClipAssembly.TrimWindowExample | RCE.TransformManager/code/RCE.TransformManager.Tasks/RCEProjectTask.cs:176-183 | Marks 5 s and 10 s give the window [5 s, 10 s] |
| OutputConfig.ApplyResizeMode | RCE.TransformManager/code/RCE.TransformManager.Tasks/RCEProjectTask.cs:214-231 | Only output metadata whose setting is exactly `Stretch` or `Letterbox` sets that mode. Every other metadata or setting leaves the item unchanged, and nothing but the mode ever changes |
| OutputConfig.ApplyResizeModeIdempotent | RCE.TransformManager/code/RCE.TransformManager.Tasks/RCEProjectTask.cs:214-231 | Applying the same metadata twice gives the same item as once |
| OutputConfig.ResizeModeChangesOnlyWhenNamed | RCE.TransformManager/code/RCE.TransformManager.Tasks/RCEProjectTask.cs:214-231 | The item changes exactly when the metadata names `Stretch` or `Letterbox` and the item's mode differs from it |
| OutputConfig.EffectivePreset | RCE.TransformManager/code/RCE.TransformManager.Tasks/RCEProjectTask.cs:121-132 | A preset is used exactly when the property is present and non-empty, and it is that value |
| OutputConfig.ApplyPreset | RCE.TransformManager/code/RCE.TransformManager.Tasks/RCEProjectTask.cs:233-237 | With no preset the item is unchanged. With one, the step succeeds exactly when the encoder applies it and records it on the item; otherwise it faults with the preset's name |
| Progress.TruncDiv | RCE.TransformManager/code/RCE.TransformManager.Tasks/RCEProjectTask.cs:298 | C# integer division agrees with floor division for a non-negative dividend and a positive divisor |
| Progress.PercentComplete | RCE.TransformManager/code/RCE.TransformManager.Tasks/RCEProjectTask.cs:298 | For pass 1 ≤ C ≤ T and pass progress ≤ 100 the reported percentage is at most 100 |
| Progress.PercentInRange | RCE.TransformManager/code/RCE.TransformManager.Tasks/RCEProjectTask.cs:298 | The unwrapped sum lies in 0..100 in that range, so the `ushort` cast never wraps there |
| Progress.NoWrapInRange | RCE.TransformManager/code/RCE.TransformManager.Tasks/RCEProjectTask.cs:298 | In that range the result is (100 div T)·(C−1) + (P div T) |
| Progress.PercentExample | RCE.TransformManager/code/RCE.TransformManager.Tasks/RCEProjectTask.cs:298 | Pass 2 of 4 at 50 reports 37 |
| Progress.PassBoundary | RCE.TransformManager/code/RCE.TransformManager.Tasks/RCEProjectTask.cs:298 | The end of pass C (progress 100) reports the same value as the start of pass C+1 (progress 0), for every non-zero pass count |
| Progress.PercentMonotoneInProgress | RCE.TransformManager/code/RCE.TransformManager.Tasks/RCEProjectTask.cs:298 | Within a pass, the percentage never decreases as pass progress grows |
| Progress.LaterPassNeverRegresses | RCE.TransformManager/code/RCE.TransformManager.Tasks/RCEProjectTask.cs:298 | Any point of a later pass reports at least as much as any point of an earlier one |
| Progress.LastPassReachesHundred | RCE.TransformManager/code/RCE.TransformManager.Tasks/RCEProjectTask.cs:298 | The last pass at 100 reports 100 exactly when the pass count divides 100; otherwise the percentage stays below 100 |
| Pipeline.BuildItem | RCE.TransformManager/code/RCE.TransformManager.Tasks/RCEProjectTask.cs:157-237 | No sequence skips the reference and several sequences fault it. A built item has at least one source, the token's output name and the effective preset. A preset fault names the effective preset |
| Pipeline.Finish | RCE.TransformManager/code/RCE.TransformManager.Tasks/RCEProjectTask.cs:213-237 | Shaping an assembled item keeps its sources and output name. It sets the effective preset when there is one, and otherwise keeps the item's preset. The only fault it raises is the rejected effective preset |
| Pipeline.PresetDecidesBuild | RCE.TransformManager/code/RCE.TransformManager.Tasks/RCEProjectTask.cs:163-237 | With a unique visual track whose shots all resolve and open, and an effective preset `p`, the reference yields the shaped item carrying `p` when the encoder applies `p`, and faults with `PresetRejected(p)` when it does not |
| Pipeline.BuiltItems | RCE.TransformManager/code/RCE.TransformManager.Tasks/RCEProjectTask.cs:136-243 | Every item in the list is the item built from some reference of the manifest |
| Pipeline.ProcessReference | RCE.TransformManager/code/RCE.TransformManager.Tasks/RCEProjectTask.cs:141-153 | A descriptor that cannot be read or parsed faults the reference with that cause |
| Pipeline.AddToJob | RCE.TransformManager/code/RCE.TransformManager.Tasks/RCEProjectTask.cs:241-254 | The job changes exactly when a built item is accepted, and then only by appending that item |
| Pipeline.AssignJobParameters | RCE.TransformManager/code/RCE.TransformManager.Tasks/RCEProjectTask.cs:134-265 | The batch loop yields the same job as handling the references one by one in manifest order |
| Pipeline.SkipOutcomes | RCE.TransformManager/code/RCE.TransformManager.Tasks/RCEProjectTask.cs:157-163 | No sequence, or one sequence whose only visual track has no shots, yields no item and no fault. Nothing else is skipped |
| Pipeline.SelectionFaults | RCE.TransformManager/code/RCE.TransformManager.Tasks/RCEProjectTask.cs:157-163 | Several sequences, no visual track or several visual tracks fault the reference |
| Pipeline.BuiltItemShape | RCE.TransformManager/code/RCE.TransformManager.Tasks/RCEProjectTask.cs:163-237 | A built item comes from the unique visual track: one source per shot in order, named by the token. It carries the metadata's resize mode, or the default, and the effective preset |
| Pipeline.BuildsWhenEveryShotResolves | RCE.TransformManager/code/RCE.TransformManager.Tasks/RCEProjectTask.cs:163-243 | Without a preset, a unique visual track with shots that all resolve and open always yields an item |
| Pipeline.RunAppend | RCE.TransformManager/code/RCE.TransformManager.Tasks/RCEProjectTask.cs:136-265 | Handling `a` then `b` is handling `a + b`: the loop keeps no state but the job |
| Pipeline.FailureIsolation | RCE.TransformManager/code/RCE.TransformManager.Tasks/RCEProjectTask.cs:136-265 | A reference that leaves the job unchanged (skipped, faulted or rejected) gives the same batch as removing that reference from the manifest |
| Pipeline.UnbuiltReferenceIsIsolated | RCE.TransformManager/code/RCE.TransformManager.Tasks/RCEProjectTask.cs:258-264 | A reference whose handling faults or skips does not affect the items of any other reference |
| Pipeline.BatchKeepsManifestOrder | RCE.TransformManager/code/RCE.TransformManager.Tasks/RCEProjectTask.cs:136-265 | The job's items are a subsequence of the built items, in manifest order |
| Pipeline.AcceptingJobHoldsEveryBuiltItem | RCE.TransformManager/code/RCE.TransformManager.Tasks/RCEProjectTask.cs:241-254 | When the job accepts every item, it holds exactly the built items, in manifest order |
| Pipeline.MalformedMiddleReference | RCE.TransformManager/code/RCE.TransformManager.Tasks/RCEProjectTask.cs:136-265 | A malformed descriptor in reference 2 of 3 still lets references 1 and 3 produce their items |

## Left out

- Reading the descriptor file and its `DataContractSerializer` parse (lines 141-153, 310-331) are not modelled. A reference carries their outcome; a missing `src`, an unreadable file and a malformed descriptor are its three failures.
- The task lifecycle (`Initialize`, `Start`, `Dispose`), `Job.Encode`, and the exception-chain logging (lines 30-111) belong to the host and the encoder.
- The host and encoder settings on lines 115-119 are not modelled. Among them, line 117 subscribes the progress handler that `Progress.PercentComplete` computes for, and line 118 takes the output folder from the host.
- Logging and the status sink are left out. `PercentComplete` computes the value that `OnProgress` reports.
- GUID generation becomes the reference's token.
- Environment-variable expansion of the preset path (line 129) is left out: `EffectivePreset` returns the property value unexpanded.
- `OutputConfig.ApplyPreset` records the preset on the item. It does not model the settings a preset overwrites, which may include the resize mode.
- Media item and source internals are left out. Only whether the encoder opens a file is modelled.
- Trim points are reals. `TimeSpan.FromSeconds` rounding is left out, and so are its exceptions for NaN, infinite or out-of-range marks. The `(ushort)` cast of the double pass progress is also left out: progress arrives already converted to a `UInt16`.
- The culture-sensitive `EndsWith` and `ToUpperInvariant` are modelled as ordinal and ASCII-only. Non-ASCII case mappings are not modelled.
- Windows glob rules are left out: case-insensitive matching, 8.3 short names, and `*` or `?` inside the base name. The listing order is the given sequence, not the file system's.
- `Path` quirks are left out. `GetFileNameWithoutExtension` also cuts at `\` and `:`, and invalid path characters make `Path` methods throw. Listing entries are already bare file names.
- Nulls produced by the deserializer are not modelled: null collections, a null `Settings`, `SourceAnchor`, `Ref` or `TrackType`, and null elements. A sequence list whose only element is null is skipped like an empty one (lines 157-159). Every other null listed here throws and is absorbed per reference.
- The progress handler runs on the encoder's callback thread. That concurrency is not modelled.
- Progress.PercentComplete: a pass count of 0 makes line 298 throw `DivideByZeroException` out of `OnProgress`. The function requires a non-zero count and does not model that exception. Its bound of 100 is stated only for 1 ≤ C ≤ T and progress ≤ 100, the range the encoder reports. Outside it the model computes the wrapped value but states nothing about it.

=== FILE: clip_assembly.dfy ===
/**
 * Assembly of the visual track's shots into one encode item: shot 0 creates
 * the item and its primary source, every later shot appends a source, each
 * trimmed to the shot's marks.
 */
module ClipAssembly {
  import opened Outcomes
  import opened ProjectModel
  import VideoPath

  /** The placeholder extension the encoder replaces with its own default. */
  const DefaultExtension := ".{Default Extension}"

  /** The item's output file name: a fresh token and the placeholder extension. */
  function OutputFileName(token: string): (r: string)
    ensures |r| == |token| + |DefaultExtension|
    ensures r[..|token|] == token && r[|token|..] == DefaultExtension
  {
    token + DefaultExtension
  }

  /**
   * The clip a shot contributes once its media path is known: each mark is
   * copied when present and is 0 when missing.
   */
  function ClipOf(shot: Shot, path: string): (r: SourceClip)
    ensures r.path == path
    ensures shot.anchor.markIn.Some? ==> r.start == shot.anchor.markIn.value
    ensures shot.anchor.markIn.None? ==> r.start == 0.0
    ensures shot.anchor.markOut.Some? ==> r.end == shot.anchor.markOut.value
    ensures shot.anchor.markOut.None? ==> r.end == 0.0
  {
    SourceClip(path, shot.anchor.markIn.GetOr(0.0), shot.anchor.markOut.GetOr(0.0))
  }

  /**
   * One shot's source: resolve its path, then let the encoder open the file
   * (the media item and source constructors read it).
   */
  function ShotClip(shot: Shot, host: Host, encoder: Encoder): (r: Result<SourceClip, Fault>)
    ensures r.Success? <==> VideoPath.ExtractVideoPath(shot, host).Success?
                            && encoder.opens(VideoPath.ExtractVideoPath(shot, host).value)
    ensures r.Success? ==> r.value == ClipOf(shot, VideoPath.ExtractVideoPath(shot, host).value)
    ensures r.Failure? && VideoPath.ExtractVideoPath(shot, host).Success? ==>
              r.error == SourceUnavailable(VideoPath.ExtractVideoPath(shot, host).value)
  {
    var path :- VideoPath.ExtractVideoPath(shot, host);
    if encoder.opens(path) then Success(ClipOf(shot, path)) else Failure(SourceUnavailable(path))
  }

  /**
   * The clips of all shots, in shot order, each made by `step`; the first
   * shot whose step fails aborts the whole assembly with that failure.
   */
  function Clips(shots: seq<Shot>, step: Shot -> Result<SourceClip, Fault>): (r: Result<seq<SourceClip>, Fault>)
    ensures r.Success? <==> forall i :: 0 <= i < |shots| ==> step(shots[i]).Success?
    ensures r.Success? ==> |r.value| == |shots|
    ensures r.Success? ==> forall i :: 0 <= i < |shots| ==> r.value[i] == step(shots[i]).value
    ensures r.Failure? ==>
              exists i :: && 0 <= i < |shots|
                          && step(shots[i]).Failure?
                          && r.error == step(shots[i]).error
                          && forall j :: 0 <= j < i ==> step(shots[j]).Success?
  {
    if |shots| == 0 then Success([])
    else
      var head := step(shots[0]);
      if head.Failure? then
        Failure(head.error)
      else
        var rest := Clips(shots[1..], step);
        if rest.Failure? then
          var k :| && 0 <= k < |shots[1..]|
                   && step(shots[1..][k]).Failure?
                   && rest.error == step(shots[1..][k]).error
                   && forall j :: 0 <= j < k ==> step(shots[1..][j]).Success?;
          assert forall j :: 1 <= j < k + 1 ==> shots[j] == shots[1..][j - 1];
          Failure(rest.error)
        else
          var clips := [head.value] + rest.value;
          assert forall i :: 1 <= i < |shots| ==> clips[i] == rest.value[i - 1] && shots[1..][i - 1] == shots[i];
          Success(clips)
  }

  /** Shot `i` is the first whose source cannot be built. */
  predicate FirstFailure(shots: seq<Shot>, host: Host, encoder: Encoder, i: int) {
    && 0 <= i < |shots|
    && ShotClip(shots[i], host, encoder).Failure?
    && forall j :: 0 <= j < i ==> ShotClip(shots[j], host, encoder).Success?
  }

  /**
   * The encode item for a non-empty visual track: one source per shot, in
   * shot order, with the encoder's default resize mode and no preset yet.
   */
  function Assemble(shots: seq<Shot>, token: string, host: Host, encoder: Encoder): (r: Result<EncodeItem, Fault>)
    requires |shots| > 0
    ensures r.Success? <==> forall i :: 0 <= i < |shots| ==> ShotClip(shots[i], host, encoder).Success?
    ensures r.Success? ==>
              && |r.value.sources| == |shots|
              && (forall i :: 0 <= i < |shots| ==> r.value.sources[i] == ShotClip(shots[i], host, encoder).value)
              && r.value.outputFileName == OutputFileName(token)
              && r.value.resizeMode == encoder.defaultResizeMode
              && r.value.preset == None
    ensures r.Failure? ==> exists i :: FirstFailure(shots, host, encoder, i)
                                      && r.error == ShotClip(shots[i], host, encoder).error
  {
    var clips :- Clips(shots, shot => ShotClip(shot, host, encoder));
    Success(EncodeItem(clips, OutputFileName(token), encoder.defaultResizeMode, None))
  }

  /**
   * The window of every source of an assembled item, mark by mark: source
   * `i` starts at shot `i`'s mark-in and ends at its mark-out, each 0 when
   * missing. Nothing checks the order of the marks, so a shot with a
   * positive mark-in and no mark-out contributes a source that ends before
   * it starts.
   */
  lemma ClipMarks(shots: seq<Shot>, token: string, host: Host, encoder: Encoder)
    ensures |shots| > 0 && Assemble(shots, token, host, encoder).Success? ==>
              var sources := Assemble(shots, token, host, encoder).value.sources;
              forall i :: 0 <= i < |shots| ==>
                && sources[i].start == shots[i].anchor.markIn.GetOr(0.0)
                && sources[i].end == shots[i].anchor.markOut.GetOr(0.0)
                && (shots[i].anchor.markIn.Some? && shots[i].anchor.markIn.value > 0.0 && shots[i].anchor.markOut.None? ==>
                      sources[i].end < sources[i].start)
  {
  }

  /** The trim example: marks 5 s and 10 s give the window [5 s, 10 s]. */
  lemma TrimWindowExample(path: string)
    ensures ClipOf(Shot("", [path], SourceAnchor(Some(5.0), Some(10.0))), path) == SourceClip(path, 5.0, 10.0)
  {
  }
}

=== FILE: outcomes.dfy ===
/** Option and Result values standing in for the nulls and exceptions of `RCEProjectTask`. */
module Outcomes {

  /** A value that may be absent, as a nullable reference or a `Nullable<double>` is. */
  datatype Option<+T> = None | Some(value: T) {

    /** The value, or `default` when absent (`Nullable<T>.GetValueOrDefault`). */
    function GetOr(default: T): T
    {
      match this
      case Some(v) => v
      case None => default
    }
  }

  /** The outcome of a step that either yields a value or throws. */
  datatype Result<+R, +E> = Success(value: R) | Failure(error: E) {

    predicate IsFailure() {
      Failure?
    }

    function PropagateFailure<U>(): Result<U, E>
      requires Failure?
    {
      Failure(error)
    }

    function Extract(): R
      requires Success?
    {
      value
    }
  }
}

=== FILE: output_config.dfy ===
/**
 * Output shaping of an assembled item: the resize mode named by the
 * project's output metadata, and the preset named by the job's properties.
 */
module OutputConfig {
  import opened Outcomes
  import opened ProjectModel

  /** The exact, case-sensitive names the resize switch recognises. */
  const StretchName := "Stretch"
  const LetterboxName := "Letterbox"

  /**
   * Applies the resize-mode setting of output metadata. Only the exact names
   * `Stretch` and `Letterbox` change the mode; any other value, a missing or
   * empty value, and metadata of another kind leave the item as it is.
   */
  function ApplyResizeMode(item: EncodeItem, metadata: Metadata): (r: EncodeItem)
    ensures r == item.(resizeMode := r.resizeMode)
    ensures metadata == OutputMetadata(Some(StretchName)) ==> r.resizeMode == Stretch
    ensures metadata == OutputMetadata(Some(LetterboxName)) ==> r.resizeMode == Letterbox
    ensures metadata != OutputMetadata(Some(StretchName)) && metadata != OutputMetadata(Some(LetterboxName))
            ==> r == item
  {
    match metadata
    case OutputMetadata(Some(setting)) =>
      if setting == "" then item
      else if setting == StretchName then item.(resizeMode := Stretch)
      else if setting == LetterboxName then item.(resizeMode := Letterbox)
      else item
    case _ => item
  }

  /** Applying the same metadata twice changes nothing more. */
  lemma ApplyResizeModeIdempotent(item: EncodeItem, metadata: Metadata)
    ensures ApplyResizeMode(ApplyResizeMode(item, metadata), metadata) == ApplyResizeMode(item, metadata)
  {
  }

  /** The mode changes exactly when output metadata names a recognised mode different from the current one. */
  lemma ResizeModeChangesOnlyWhenNamed(item: EncodeItem, metadata: Metadata)
    ensures ApplyResizeMode(item, metadata) != item <==>
              || (metadata == OutputMetadata(Some(StretchName)) && item.resizeMode != Stretch)
              || (metadata == OutputMetadata(Some(LetterboxName)) && item.resizeMode != Letterbox)
  {
  }

  /**
   * The preset to apply: the property's value when it is present and
   * non-empty (environment-variable expansion is not modelled).
   */
  function EffectivePreset(property: Option<string>): (r: Option<string>)
    ensures r.Some? <==> property.Some? && property.value != ""
    ensures r.Some? ==> r.value == property.value
  {
    match property
    case Some(value) => if value == "" then None else Some(value)
    case None => None
  }

  /**
   * Applies the preset, if there is one. The encoder decides whether it
   * applies; when it does not, the exception abandons the reference.
   */
  function ApplyPreset(item: EncodeItem, preset: Option<string>, encoder: Encoder): (r: Result<EncodeItem, Fault>)
    ensures preset.None? ==> r == Success(item)
    ensures preset.Some? ==> (r.Success? <==> encoder.presetApplies(item, preset.value))
    ensures preset.Some? && r.Success? ==> r.value == item.(preset := preset)
    ensures preset.Some? && r.Failure? ==> r.error == PresetRejected(preset.value)
  {
    match preset
    case None => Success(item)
    case Some(name) =>
      if encoder.presetApplies(item, name) then Success(item.(preset := Some(name)))
      else Failure(PresetRejected(name))
  }
}

=== FILE: pipeline.dfy ===
/**
 * The per-reference pipeline and the batch loop of `AssignJobParameters`:
 * every `ref` of the job manifest is turned into at most one encode item,
 * and a failure while handling one reference drops only that reference.
 */
module Pipeline {
  import opened Outcomes
  import opened ProjectModel
  import Selection
  import ClipAssembly
  import OutputConfig

  /**
   * One `ref` element of the job manifest: the outcome of reading and parsing
   * the descriptor its `src` names, and the fresh token that names an item
   * built from it.
   */
  datatype ManifestRef = ManifestRef(parsed: Result<Project, LoadError>, token: string)

  /** Why a reference quietly produces no item. */
  datatype SkipReason = NoSequence | EmptyVisualTrack

  /** What handling one reference yields before the item is offered to the job. */
  datatype RefOutcome =
    | Skipped(reason: SkipReason)
    | Faulted(fault: Fault)
    | Built(item: EncodeItem)

  /** Selection, clip assembly, resize mode and preset for one parsed project. */
  function BuildItem(project: Project, token: string, host: Host, encoder: Encoder): (r: RefOutcome)
    ensures |project.sequences| == 0 ==> r == Skipped(NoSequence)
    ensures |project.sequences| > 1 ==> r == Faulted(MultipleSequences)
    ensures r.Built? ==>
              && |r.item.sources| > 0
              && r.item.outputFileName == ClipAssembly.OutputFileName(token)
              && r.item.preset == OutputConfig.EffectivePreset(host.presetProperty)
    ensures r.Faulted? && r.fault.PresetRejected? ==>
              OutputConfig.EffectivePreset(host.presetProperty) == Some(r.fault.preset)
  {
    match Selection.SelectTrack(project)
    case Failure(fault) => Faulted(fault)
    case Success(NoSequence) => Skipped(NoSequence)
    case Success(Chosen(track)) =>
      if |track.shots| == 0 then Skipped(EmptyVisualTrack)
      else
        match ClipAssembly.Assemble(track.shots, token, host, encoder)
        case Failure(fault) => Faulted(fault)
        case Success(item) => Finish(item, project.metadata, host, encoder)
  }

  /** The resize mode of the metadata, then the preset, for an assembled item. */
  function Finish(item: EncodeItem, metadata: Metadata, host: Host, encoder: Encoder): (r: RefOutcome)
    ensures r.Built? || r.Faulted?
    ensures r.Built? ==>
              && r.item.sources == item.sources
              && r.item.outputFileName == item.outputFileName
              && r.item.preset == (if OutputConfig.EffectivePreset(host.presetProperty).Some?
                                   then OutputConfig.EffectivePreset(host.presetProperty) else item.preset)
    ensures r.Faulted? ==> r.fault.PresetRejected? && OutputConfig.EffectivePreset(host.presetProperty) == Some(r.fault.preset)
  {
    var shaped := OutputConfig.ApplyResizeMode(item, metadata);
    match OutputConfig.ApplyPreset(shaped, OutputConfig.EffectivePreset(host.presetProperty), encoder)
    case Failure(fault) => Faulted(fault)
    case Success(finished) => Built(finished)
  }

  /** Handles one reference; a descriptor that cannot be read or parsed faults. */
  function ProcessReference(ref: ManifestRef, host: Host, encoder: Encoder): (r: RefOutcome)
    ensures ref.parsed.Failure? ==> r == Faulted(Unloadable(ref.parsed.error))
  {
    match ref.parsed
    case Failure(cause) => Faulted(Unloadable(cause))
    case Success(project) => BuildItem(project, ref.token, host, encoder)
  }

  /**
   * Offers an outcome to the job: a built item is appended unless the job
   * rejects it (the add throws, and the inner handler drops the item); any
   * other outcome leaves the job unchanged.
   */
  function AddToJob(job: seq<EncodeItem>, outcome: RefOutcome, encoder: Encoder): (r: seq<EncodeItem>)
    ensures r != job <==> outcome.Built? && encoder.accepts(job, outcome.item)
    ensures r != job ==> r == job + [outcome.item]
  {
    if outcome.Built? && encoder.accepts(job, outcome.item) then job + [outcome.item] else job
  }

  /** The job after handling `refs` in manifest order, starting from `job`. */
  function Run(job: seq<EncodeItem>, refs: seq<ManifestRef>, host: Host, encoder: Encoder): seq<EncodeItem>
    decreases |refs|
  {
    if |refs| == 0 then job
    else AddToJob(Run(job, refs[..|refs| - 1], host, encoder), ProcessReference(refs[|refs| - 1], host, encoder), encoder)
  }

  /** The job's items after the whole manifest. */
  function RunBatch(refs: seq<ManifestRef>, host: Host, encoder: Encoder): seq<EncodeItem> {
    Run([], refs, host, encoder)
  }

  /** The batch loop: each reference is handled in turn and its item, if any, offered to the job. */
  method AssignJobParameters(refs: seq<ManifestRef>, host: Host, encoder: Encoder) returns (job: seq<EncodeItem>)
    ensures job == RunBatch(refs, host, encoder)
  {
    job := [];
    var i := 0;
    while i < |refs|
      invariant 0 <= i <= |refs|
      invariant job == Run([], refs[..i], host, encoder)
    {
      var outcome := ProcessReference(refs[i], host, encoder);
      job := AddToJob(job, outcome, encoder);
      assert refs[..i + 1][..i] == refs[..i];
      i := i + 1;
    }
    assert refs[..i] == refs;
  }

  /** The tracks of the project's only sequence, or none. */
  function SoleTracks(project: Project): seq<Track> {
    if |project.sequences| == 1 then project.sequences[0].tracks else []
  }

  /**
   * A project with no sequence, or whose only visual track has no shots,
   * yields no item and no fault; nothing else is skipped.
   */
  lemma SkipOutcomes(project: Project, token: string, host: Host, encoder: Encoder)
    ensures |project.sequences| == 0 ==> BuildItem(project, token, host, encoder) == Skipped(NoSequence)
    ensures BuildItem(project, token, host, encoder).Skipped? <==>
              || |project.sequences| == 0
              || (&& |project.sequences| == 1
                  && exists i :: Selection.UniqueVisualAt(SoleTracks(project), i) && |SoleTracks(project)[i].shots| == 0)
  {
    var tracks := SoleTracks(project);
    if |project.sequences| == 1 && exists i :: Selection.UniqueVisualAt(tracks, i) {
      var i :| Selection.UniqueVisualAt(tracks, i);
      Selection.SelectsTheUniqueVisualTrack(project, i);
    }
  }

  /**
   * Several sequences, no visual track, or several visual tracks throw; the
   * fault abandons the reference.
   */
  lemma SelectionFaults(project: Project, token: string, host: Host, encoder: Encoder)
    ensures |project.sequences| > 1 ==> BuildItem(project, token, host, encoder) == Faulted(MultipleSequences)
    ensures |project.sequences| == 1 && Selection.NoVisual(SoleTracks(project)) ==>
              BuildItem(project, token, host, encoder) == Faulted(NoVisualTrack)
    ensures |project.sequences| == 1 && Selection.SeveralVisual(SoleTracks(project)) ==>
              BuildItem(project, token, host, encoder) == Faulted(MultipleVisualTracks)
  {
  }

  /**
   * A built item comes from the only visual track of the only sequence: one
   * source per shot in shot order, named by the reference's token, with the
   * metadata's resize mode and the effective preset. The hypothesis that the
   * outcome is built sits on the left of the implication, so the lemma is
   * the same statement as one that requires it.
   */
  lemma BuiltItemShape(project: Project, token: string, host: Host, encoder: Encoder)
    ensures var outcome := BuildItem(project, token, host, encoder);
            var tracks := SoleTracks(project);
            outcome.Built? ==>
              && |project.sequences| == 1
              && (exists i :: Selection.UniqueVisualAt(tracks, i) && ItemFromShots(outcome.item, tracks[i].shots, token, host, encoder))
              && outcome.item.preset == OutputConfig.EffectivePreset(host.presetProperty)
              && (project.metadata == OutputMetadata(Some(OutputConfig.StretchName)) ==> outcome.item.resizeMode == Stretch)
              && (project.metadata == OutputMetadata(Some(OutputConfig.LetterboxName)) ==> outcome.item.resizeMode == Letterbox)
              && (project.metadata != OutputMetadata(Some(OutputConfig.StretchName))
                  && project.metadata != OutputMetadata(Some(OutputConfig.LetterboxName))
                  ==> outcome.item.resizeMode == encoder.defaultResizeMode)
  {
    if BuildItem(project, token, host, encoder).Built? {
      var selected := Selection.SelectTrack(project);
      assert selected.Success? && selected.value.Chosen?;
      var track := selected.value.track;
      var tracks := SoleTracks(project);
      var i :| Selection.UniqueVisualAt(tracks, i) && track == tracks[i];
      var assembled := ClipAssembly.Assemble(track.shots, token, host, encoder);
      assert assembled.Success?;
      var shaped := OutputConfig.ApplyResizeMode(assembled.value, project.metadata);
      var preset := OutputConfig.EffectivePreset(host.presetProperty);
      var finished := OutputConfig.ApplyPreset(shaped, preset, encoder);
      assert finished.Success?;
      assert BuildItem(project, token, host, encoder).item == finished.value;
      assert finished.value == shaped.(preset := preset);
      assert ItemFromShots(finished.value, tracks[i].shots, token, host, encoder);
    }
  }

  /** `item` holds one source per shot, in shot order, and the output name made from `token`. */
  predicate ItemFromShots(item: EncodeItem, shots: seq<Shot>, token: string, host: Host, encoder: Encoder) {
    && |shots| > 0
    && |item.sources| == |shots|
    && (forall k :: 0 <= k < |shots| ==>
          && ClipAssembly.ShotClip(shots[k], host, encoder).Success?
          && item.sources[k] == ClipAssembly.ShotClip(shots[k], host, encoder).value)
    && item.outputFileName == ClipAssembly.OutputFileName(token)
  }

  /**
   * Without a preset, a project whose only visual track has shots that all
   * resolve and open always yields an item.
   */
  lemma BuildsWhenEveryShotResolves(project: Project, token: string, host: Host, encoder: Encoder, i: nat)
    requires |project.sequences| == 1 && Selection.UniqueVisualAt(SoleTracks(project), i)
    requires |SoleTracks(project)[i].shots| > 0
    requires forall k :: 0 <= k < |SoleTracks(project)[i].shots| ==>
               ClipAssembly.ShotClip(SoleTracks(project)[i].shots[k], host, encoder).Success?
    requires OutputConfig.EffectivePreset(host.presetProperty).None?
    ensures BuildItem(project, token, host, encoder).Built?
  {
  }

  /**
   * Once every shot of the unique visual track resolves and opens, a preset
   * decides the outcome: the item is built with the preset recorded when the
   * encoder applies it, and the reference faults when it does not. The
   * hypotheses sit on the left of the implication, so the lemma is the same
   * statement as one that requires them.
   */
  lemma PresetDecidesBuild(project: Project, token: string, host: Host, encoder: Encoder, i: nat, p: string)
    ensures var tracks := SoleTracks(project);
            && |project.sequences| == 1 && Selection.UniqueVisualAt(tracks, i)
            && |tracks[i].shots| > 0
            && (forall k :: 0 <= k < |tracks[i].shots| ==> ClipAssembly.ShotClip(tracks[i].shots[k], host, encoder).Success?)
            && OutputConfig.EffectivePreset(host.presetProperty) == Some(p)
            ==>
              var shaped := OutputConfig.ApplyResizeMode(ClipAssembly.Assemble(tracks[i].shots, token, host, encoder).value, project.metadata);
              BuildItem(project, token, host, encoder)
              == if encoder.presetApplies(shaped, p) then Built(shaped.(preset := Some(p))) else Faulted(PresetRejected(p))
  {
    var tracks := SoleTracks(project);
    if |project.sequences| == 1 && Selection.UniqueVisualAt(tracks, i) {
      Selection.SelectsTheUniqueVisualTrack(project, i);
    }
  }

  /** Handling `a` and then `b` is handling `a + b`. */
  lemma {:induction false} RunAppend(job: seq<EncodeItem>, a: seq<ManifestRef>, b: seq<ManifestRef>, host: Host, encoder: Encoder)
    ensures Run(job, a + b, host, encoder) == Run(Run(job, a, host, encoder), b, host, encoder)
    decreases |b|
  {
    if |b| == 0 {
      assert a + b == a;
    } else {
      var n := |b| - 1;
      assert (a + b)[..|a + b| - 1] == a + b[..n];
      assert (a + b)[|a + b| - 1] == b[n];
      RunAppend(job, a, b[..n], host, encoder);
    }
  }

  /**
   * Failure isolation: when handling reference `k` leaves the job unchanged
   * (it was skipped, it faulted, or its item was rejected), the batch ends
   * exactly as if that reference were absent from the manifest.
   */
  lemma FailureIsolation(refs: seq<ManifestRef>, k: nat, host: Host, encoder: Encoder)
    requires k < |refs|
    requires var before := RunBatch(refs[..k], host, encoder);
             AddToJob(before, ProcessReference(refs[k], host, encoder), encoder) == before
    ensures RunBatch(refs, host, encoder) == RunBatch(refs[..k] + refs[k + 1..], host, encoder)
  {
    var a, x, b := refs[..k], [refs[k]], refs[k + 1..];
    assert refs == a + x + b;
    RunAppend([], a + x, b, host, encoder);
    RunAppend([], a, x, host, encoder);
    assert x[..0] == [];
    RunAppend([], a, b, host, encoder);
  }

  /** A reference that yields no item never changes the batch. */
  lemma UnbuiltReferenceIsIsolated(refs: seq<ManifestRef>, k: nat, host: Host, encoder: Encoder)
    requires k < |refs| && !ProcessReference(refs[k], host, encoder).Built?
    ensures RunBatch(refs, host, encoder) == RunBatch(refs[..k] + refs[k + 1..], host, encoder)
  {
    FailureIsolation(refs, k, host, encoder);
  }

  /** The items the references yield, in manifest order, before the job decides on them. */
  function BuiltItems(refs: seq<ManifestRef>, host: Host, encoder: Encoder): (r: seq<EncodeItem>)
    ensures forall k :: 0 <= k < |r| ==>
              exists j :: 0 <= j < |refs| && ProcessReference(refs[j], host, encoder) == Built(r[k])
    decreases |refs|
  {
    if |refs| == 0 then []
    else
      var last := ProcessReference(refs[|refs| - 1], host, encoder);
      BuiltItems(refs[..|refs| - 1], host, encoder) + (if last.Built? then [last.item] else [])
  }

  /** `a` is `b` with some elements left out, the rest kept in order. */
  predicate IsSubsequence<T(==)>(a: seq<T>, b: seq<T>)
    decreases |b|
  {
    if |a| == 0 then true
    else if |b| == 0 then false
    else
      || (a[|a| - 1] == b[|b| - 1] && IsSubsequence(a[..|a| - 1], b[..|b| - 1]))
      || IsSubsequence(a, b[..|b| - 1])
  }

  /** The job holds built items only, in manifest order: the ones it accepted. */
  lemma {:induction false} BatchKeepsManifestOrder(refs: seq<ManifestRef>, host: Host, encoder: Encoder)
    ensures IsSubsequence(RunBatch(refs, host, encoder), BuiltItems(refs, host, encoder))
    decreases |refs|
  {
    if |refs| > 0 {
      var init := refs[..|refs| - 1];
      BatchKeepsManifestOrder(init, host, encoder);
      var job, built := RunBatch(init, host, encoder), BuiltItems(init, host, encoder);
      var last := ProcessReference(refs[|refs| - 1], host, encoder);
      if last.Built? {
        var b := built + [last.item];
        assert b[..|b| - 1] == built;
        if encoder.accepts(job, last.item) {
          var j := job + [last.item];
          assert j[..|j| - 1] == job;
        }
      } else {
        assert built + [] == built;
      }
    }
  }

  /** A job that accepts every item holds exactly the built items, in manifest order. */
  lemma {:induction false} AcceptingJobHoldsEveryBuiltItem(refs: seq<ManifestRef>, host: Host, encoder: Encoder)
    requires forall job, item :: encoder.accepts(job, item)
    ensures RunBatch(refs, host, encoder) == BuiltItems(refs, host, encoder)
    decreases |refs|
  {
    if |refs| > 0 {
      AcceptingJobHoldsEveryBuiltItem(refs[..|refs| - 1], host, encoder);
    }
  }

  /**
   * A malformed descriptor between two good references: with a job that
   * accepts every item, the first and third items are still produced.
   */
  lemma MalformedMiddleReference(first: ManifestRef, bad: ManifestRef, third: ManifestRef, host: Host, encoder: Encoder)
    requires forall job, item :: encoder.accepts(job, item)
    requires ProcessReference(first, host, encoder).Built? && ProcessReference(third, host, encoder).Built?
    requires bad.parsed == Failure(Malformed)
    ensures RunBatch([first, bad, third], host, encoder)
            == [ProcessReference(first, host, encoder).item, ProcessReference(third, host, encoder).item]
  {
    var refs := [first, bad, third];
    var item1, item3 := ProcessReference(first, host, encoder).item, ProcessReference(third, host, encoder).item;
    assert refs[..2] == [first, bad] && [first, bad][..1] == [first] && [first][..0] == [];
    assert BuiltItems([first], host, encoder) == [item1];
    assert BuiltItems([first, bad], host, encoder) == [item1];
    assert BuiltItems(refs, host, encoder) == [item1, item3];
    AcceptingJobHoldsEveryBuiltItem(refs, host, encoder);
  }
}

=== FILE: progress.dfy ===
/**
 * The overall percentage reported for an encoder progress callback
 * (`OnProgress`): each pass gets an equal whole-number share of 100, and the
 * current pass adds its own progress scaled down to that share.
 */
module Progress {

  /** C#'s `ushort`. */
  newtype UInt16 = x: int | 0 <= x < 0x1_0000

  /** C#'s `/` on `int`: the quotient rounded toward zero. */
  function TruncDiv(a: int, b: int): (q: int)
    requires b != 0
    ensures a >= 0 && b > 0 ==> q == a / b
  {
    var n := if a < 0 then -a else a;
    var d := if b < 0 then -b else b;
    if (a < 0) != (b < 0) then -(n / d) else n / d
  }

  /**
   * `(ushort)((100 / total) * (current - 1) + progress / total)`, where
   * `progress` is the pass progress already cast to `ushort`. Unchecked `int`
   * arithmetic wraps modulo 2^32 and the cast keeps the low 16 bits, so the
   * result is the exact sum modulo 2^16. A zero pass count divides by zero.
   */
  function PercentComplete(currentPass: int, totalPasses: int, passProgress: UInt16): (r: UInt16)
    requires totalPasses != 0
    ensures 1 <= currentPass <= totalPasses && passProgress <= 100 ==> r <= 100
  {
    var sum := TruncDiv(100, totalPasses) * (currentPass - 1) + TruncDiv(passProgress as int, totalPasses);
    PercentInRange(currentPass, totalPasses, passProgress);
    (sum % 0x1_0000) as UInt16
  }

  /** The unwrapped sum for a pass within the pass count stays within 0..100. */
  lemma PercentInRange(currentPass: int, totalPasses: int, passProgress: UInt16)
    requires totalPasses != 0
    ensures var sum := TruncDiv(100, totalPasses) * (currentPass - 1) + TruncDiv(passProgress as int, totalPasses);
            1 <= currentPass <= totalPasses && passProgress <= 100 ==> 0 <= sum <= 100
  {
    if 1 <= currentPass <= totalPasses && passProgress <= 100 {
      var share := 100 / totalPasses;
      DivTimesDivisor(100, totalPasses);
      DivMonotone(passProgress as int, 100, totalPasses);
      MulMonotone(share, currentPass - 1, totalPasses - 1);
      assert share * (totalPasses - 1) + share == share * totalPasses;
    }
  }

  /** Within the callback's range no wrap-around happens and the divisions are plain floors. */
  lemma NoWrapInRange(currentPass: int, totalPasses: int, passProgress: UInt16)
    requires 1 <= currentPass <= totalPasses && passProgress <= 100
    ensures PercentComplete(currentPass, totalPasses, passProgress) as int
            == (100 / totalPasses) * (currentPass - 1) + (passProgress as int) / totalPasses
  {
    PercentInRange(currentPass, totalPasses, passProgress);
  }

  /** The worked example: pass 2 of 4 at 50% reports 25 + 12 = 37. */
  lemma PercentExample()
    ensures PercentComplete(2, 4, 50) == 37
  {
  }

  /** The end of one pass reports the same value as the start of the next. */
  lemma PassBoundary(currentPass: int, totalPasses: int)
    requires totalPasses != 0
    ensures PercentComplete(currentPass, totalPasses, 100) == PercentComplete(currentPass + 1, totalPasses, 0)
  {
  }

  /** Within a pass, more pass progress never reports less. */
  lemma PercentMonotoneInProgress(currentPass: int, totalPasses: int, p: UInt16, p': UInt16)
    requires 1 <= currentPass <= totalPasses && p <= p' <= 100
    ensures PercentComplete(currentPass, totalPasses, p) <= PercentComplete(currentPass, totalPasses, p')
  {
    NoWrapInRange(currentPass, totalPasses, p);
    NoWrapInRange(currentPass, totalPasses, p');
    DivMonotone(p as int, p' as int, totalPasses);
  }

  /** A later pass never reports less than an earlier one, whatever their pass progress. */
  lemma LaterPassNeverRegresses(c: int, c': int, totalPasses: int, p: UInt16, p': UInt16)
    requires 1 <= c < c' <= totalPasses && p <= 100 && p' <= 100
    ensures PercentComplete(c, totalPasses, p) <= PercentComplete(c', totalPasses, p')
  {
    var share := 100 / totalPasses;
    NoWrapInRange(c, totalPasses, p);
    NoWrapInRange(c', totalPasses, p');
    DivMonotone(p as int, 100, totalPasses);
    DivMonotone(0, p' as int, totalPasses);
    MulMonotone(share, c, c' - 1);
    assert share * (c - 1) + share == share * c;
  }

  /** The last pass at 100% reports 100 exactly when the pass count divides 100. */
  lemma LastPassReachesHundred(totalPasses: int)
    requires totalPasses >= 1
    ensures PercentComplete(totalPasses, totalPasses, 100) == 100 <==> 100 % totalPasses == 0
  {
  }

  lemma DivTimesDivisor(a: int, b: int)
    requires a >= 0 && b > 0
    ensures 0 <= (a / b) * b <= a
  {
  }

  lemma DivMonotone(a: int, c: int, b: int)
    requires 0 <= a <= c && b > 0
    ensures 0 <= a / b <= c / b
  {
    var qa, qc := a / b, c / b;
    assert a == qa * b + a % b && c == qc * b + c % b;
    if qa > qc {
      var d := qa - qc;
      MulMonotone(b, 1, d);
      assert false;
    }
  }

  lemma MulMonotone(k: int, x: int, y: int)
    requires k >= 0 && 0 <= x <= y
    ensures 0 <= k * x <= k * y
  {
  }
}

=== FILE: project.dfy ===
/**
 * The project graph read from one descriptor file, the encode item built from
 * it, and the boundary to the encoder, whose internals are not modelled.
 */
module ProjectModel {
  import opened Outcomes

  /** A trim point in seconds (a `double?` in the descriptor). */
  type Seconds = real

  /** The shot's trim window; either mark may be missing. */
  datatype SourceAnchor = SourceAnchor(markIn: Option<Seconds>, markOut: Option<Seconds>)

  /**
   * One trimmed reference to source media. `resourceRefs` lists the `Ref`
   * strings of the shot's source resources; only the first is used.
   */
  datatype Shot = Shot(title: string, resourceRefs: seq<string>, anchor: SourceAnchor)

  /** A track tagged with a free-form type; its shots define the clip order. */
  datatype Track = Track(trackType: string, shots: seq<Shot>)

  datatype Sequence = Sequence(tracks: seq<Track>)

  /**
   * The project's metadata: absent, of the generic base type, or of the output
   * variant carrying an optional resize-mode setting.
   */
  datatype Metadata =
    | NoMetadata
    | GenericMetadata
    | OutputMetadata(resizeMode: Option<string>)

  datatype Project = Project(sequences: seq<Sequence>, metadata: Metadata)

  /** The encoder's video resize modes: the two the project can name, and any other. */
  datatype ResizeMode = Stretch | Letterbox | OtherMode(name: string)

  /** One source of an encode item: a media file trimmed to [start, end]. */
  datatype SourceClip = SourceClip(path: string, start: Seconds, end: Seconds)

  /**
   * One encode item. `sources[0]` is the primary source the item was created
   * from; `preset` records the preset applied to it, if any.
   */
  datatype EncodeItem = EncodeItem(
    sources: seq<SourceClip>,
    outputFileName: string,
    resizeMode: ResizeMode,
    preset: Option<string>)

  /** Why a descriptor file could not be turned into a project. */
  datatype LoadError = MissingSource | Unreadable | Malformed

  /** The exceptions that abandon one manifest reference. */
  datatype Fault =
    | Unloadable(cause: LoadError)
    | MultipleSequences      // `SingleOrDefault` over the sequences found several
    | NoVisualTrack          // no visual track: the null track is dereferenced
    | MultipleVisualTracks   // `SingleOrDefault` over the tracks found several
    | MissingResource        // the shot's source has no resource to index
    | ListingUnavailable     // the input folder could not be searched
    | SourceUnavailable(path: string)  // the encoder could not open the media file
    | PresetRejected(preset: string)   // applying the preset threw

  /**
   * What the model needs to know of the encoder: whether a media file opens
   * (the media item and source constructors read it), whether a preset applies
   * to an item, whether the job accepts an item given the items it already
   * holds, and the resize mode a fresh item starts with.
   */
  datatype Encoder = Encoder(
    opens: string -> bool,
    presetApplies: (EncodeItem, string) -> bool,
    accepts: (seq<EncodeItem>, EncodeItem) -> bool,
    defaultResizeMode: ResizeMode)

  /**
   * The job's host-provided settings: the input folder, its directory listing
   * (file names, in the order the file system returns them; `None` when the
   * folder cannot be listed), and the value of the optional preset property.
   */
  datatype Host = Host(
    inputFolder: string,
    listing: Option<seq<string>>,
    presetProperty: Option<string>)
}

=== FILE: selection.dfy ===
/**
 * Choice of the project's sequence and of its visual track. Both use LINQ's
 * `SingleOrDefault`: no element gives the default (null), one element gives
 * that element, and several throw.
 */
module Selection {
  import opened Outcomes
  import opened Text
  import opened ProjectModel

  /** The three outcomes of `SingleOrDefault`. */
  datatype Single<T> = NoElement | One(value: T) | SeveralElements

  function SingleOrDefault<T>(s: seq<T>): (r: Single<T>)
    ensures r.NoElement? <==> |s| == 0
    ensures r.One? <==> |s| == 1
    ensures r.One? ==> r.value == s[0]
  {
    if |s| == 0 then NoElement
    else if |s| == 1 then One(s[0])
    else SeveralElements
  }

  /** The track predicate: the upper-cased type equals `VISUAL`. */
  predicate IsVisual(trackType: string) {
    ToUpper(trackType) == "VISUAL"
  }

  /** `IsVisual` accepts exactly the spellings of `visual` in any mix of cases. */
  lemma IsVisualIgnoresCase(trackType: string)
    ensures IsVisual(trackType) <==>
              && |trackType| == 6
              && forall i :: 0 <= i < 6 ==> trackType[i] == "VISUAL"[i] || trackType[i] == "visual"[i]
  {
  }

  /** Track `i` is visual and no other track is. */
  predicate UniqueVisualAt(tracks: seq<Track>, i: int) {
    && 0 <= i < |tracks|
    && IsVisual(tracks[i].trackType)
    && forall j :: 0 <= j < |tracks| && j != i ==> !IsVisual(tracks[j].trackType)
  }

  predicate NoVisual(tracks: seq<Track>) {
    forall i :: 0 <= i < |tracks| ==> !IsVisual(tracks[i].trackType)
  }

  predicate SeveralVisual(tracks: seq<Track>) {
    exists i, j :: 0 <= i < j < |tracks| && IsVisual(tracks[i].trackType) && IsVisual(tracks[j].trackType)
  }

  /** The visual tracks, in track order (the `Where` inside `SingleOrDefault(predicate)`). */
  function VisualTracks(tracks: seq<Track>): (r: seq<Track>)
    ensures |r| <= |tracks|
    ensures forall t :: t in r ==> t in tracks && IsVisual(t.trackType)
  {
    if |tracks| == 0 then []
    else if IsVisual(tracks[0].trackType) then [tracks[0]] + VisualTracks(tracks[1..])
    else VisualTracks(tracks[1..])
  }

  /** How many visual tracks there are decides between none, one and several. */
  lemma {:induction false} VisualTracksCount(tracks: seq<Track>)
    ensures |VisualTracks(tracks)| == 0 <==> NoVisual(tracks)
    ensures |VisualTracks(tracks)| == 1 ==> exists i :: UniqueVisualAt(tracks, i) && tracks[i] == VisualTracks(tracks)[0]
    ensures |VisualTracks(tracks)| >= 2 <==> SeveralVisual(tracks)
    decreases |tracks|
  {
    if |tracks| > 0 {
      var rest := tracks[1..];
      VisualTracksCount(rest);
      assert forall j :: 0 <= j < |rest| ==> rest[j] == tracks[j + 1];
      if |VisualTracks(rest)| >= 2 {
        var i, j :| 0 <= i < j < |rest| && IsVisual(rest[i].trackType) && IsVisual(rest[j].trackType);
        assert IsVisual(tracks[i + 1].trackType) && IsVisual(tracks[j + 1].trackType);
      }
      if SeveralVisual(tracks) {
        var i, j :| 0 <= i < j < |tracks| && IsVisual(tracks[i].trackType) && IsVisual(tracks[j].trackType);
        if i > 0 {
          assert IsVisual(rest[i - 1].trackType) && IsVisual(rest[j - 1].trackType);
        } else {
          assert IsVisual(rest[j - 1].trackType);
          assert !NoVisual(rest);
        }
      }
      if |VisualTracks(tracks)| == 1 {
        if IsVisual(tracks[0].trackType) {
          assert NoVisual(rest);
          assert UniqueVisualAt(tracks, 0);
        } else {
          var k :| UniqueVisualAt(rest, k) && rest[k] == VisualTracks(rest)[0];
          assert UniqueVisualAt(tracks, k + 1);
        }
      }
    }
  }

  /**
   * `SingleOrDefault` over the visual tracks. No visual track leaves the
   * track null, which the next statement dereferences, so both that case
   * and the several-track case throw.
   */
  function SelectVisualTrack(tracks: seq<Track>): (r: Result<Track, Fault>)
    ensures r.Success? <==> exists i :: UniqueVisualAt(tracks, i)
    ensures r.Success? ==> exists i :: UniqueVisualAt(tracks, i) && r.value == tracks[i]
    ensures r == Failure(NoVisualTrack) <==> NoVisual(tracks)
    ensures r == Failure(MultipleVisualTracks) <==> SeveralVisual(tracks)
  {
    VisualTracksCount(tracks);
    match SingleOrDefault(VisualTracks(tracks))
    case NoElement => Failure(NoVisualTrack)
    case One(track) => Success(track)
    case SeveralElements => Failure(MultipleVisualTracks)
  }

  /** The track chosen for a project, unless it has no sequence at all. */
  datatype TrackChoice = NoSequence | Chosen(track: Track)

  /** `SingleOrDefault` over the sequences, then over the chosen sequence's visual tracks. */
  function SelectTrack(project: Project): (r: Result<TrackChoice, Fault>)
    ensures r == Success(NoSequence) <==> |project.sequences| == 0
    ensures r == Failure(MultipleSequences) <==> |project.sequences| > 1
    ensures |project.sequences| == 1 ==>
              var tracks := project.sequences[0].tracks;
              && (r.Success? <==> exists i :: UniqueVisualAt(tracks, i))
              && (r.Success? ==> r.value.Chosen? && exists i :: UniqueVisualAt(tracks, i) && r.value.track == tracks[i])
              && (r == Failure(NoVisualTrack) <==> NoVisual(tracks))
              && (r == Failure(MultipleVisualTracks) <==> SeveralVisual(tracks))
  {
    match SingleOrDefault(project.sequences)
    case NoElement => Success(NoSequence)
    case SeveralElements => Failure(MultipleSequences)
    case One(sequence) =>
      var track :- SelectVisualTrack(sequence.tracks);
      Success(Chosen(track))
  }

  /** A project whose only sequence has exactly one visual track selects that track. */
  lemma SelectsTheUniqueVisualTrack(project: Project, i: int)
    requires |project.sequences| == 1 && UniqueVisualAt(project.sequences[0].tracks, i)
    ensures SelectTrack(project) == Success(Chosen(project.sequences[0].tracks[i]))
  {
  }
}

=== FILE: text.dfy ===
/**
 * Ordinal string helpers for `RCEProjectTask`. `EndsWith` is compared
 * ordinally, and `ToUpperInvariant` is restricted to ASCII letters.
 */
module Text {

  /** `s.EndsWith(suffix)`, compared character by character. */
  predicate EndsWith(s: string, suffix: string) {
    |suffix| <= |s| && s[|s| - |suffix|..] == suffix
  }

  /**
   * `s` begins with `prefix`, compared character by character: the literal
   * `<base>` prefix of a `<base>*.ismv` search pattern.
   */
  predicate StartsWith(s: string, prefix: string) {
    |prefix| <= |s| && s[..|prefix|] == prefix
  }

  /** `s.LastIndexOf(c)`: the position of the last `c` in `s`, or -1 when there is none. */
  function LastIndexOf(s: string, c: char): (r: int)
    ensures -1 <= r < |s|
    ensures r >= 0 ==> s[r] == c
    ensures forall j :: r < j < |s| ==> s[j] != c
    decreases |s|
  {
    if |s| == 0 then -1
    else if s[|s| - 1] == c then |s| - 1
    else LastIndexOf(s[..|s| - 1], c)
  }

  /** Upper-casing of one character, restricted to the ASCII letters. */
  function UpperChar(c: char): char {
    if 'a' <= c <= 'z' then (c as int - 32) as char else c
  }

  /** `s.ToUpperInvariant()` on ASCII text. */
  function ToUpper(s: string): (r: string)
    ensures |r| == |s|
  {
    seq(|s|, i requires 0 <= i < |s| => UpperChar(s[i]))
  }
}

=== FILE: video_path.dfy ===
/**
 * Resolution of a shot's media reference to a file in the input folder
 * (`ExtractVideoPath`). The folder's directory listing is a parameter, so the
 * search for a segmented-stream file is a pure scan of that listing.
 */
module VideoPath {
  import opened Outcomes
  import opened Text
  import opened ProjectModel

  /** The trailing segment a smooth-streaming reference carries. */
  const ManifestSuffix := "/manifest"

  /** The extension of a segmented-stream descriptor, which cannot be encoded directly. */
  const IsmExtension := ".ism"

  /** The extension of the segment files that can stand in for a descriptor. */
  const IsmvExtension := ".ismv"

  /** Removes a trailing `/manifest` by cutting the reference at its last `/`. */
  function StripManifest(shotRef: string): (r: string)
    ensures EndsWith(shotRef, ManifestSuffix) ==> r + ManifestSuffix == shotRef
    ensures !EndsWith(shotRef, ManifestSuffix) ==> r == shotRef
  {
    if EndsWith(shotRef, ManifestSuffix) then
      var cut := LastIndexOf(shotRef, '/');
      assert shotRef[|shotRef| - |ManifestSuffix|] == '/';
      assert shotRef[|shotRef| - |ManifestSuffix|..] == ManifestSuffix;
      shotRef[..cut]
    else
      shotRef
  }

  /** The part of a reference after its last `/`, or all of it when it has none. */
  function FileNameOf(shotRef: string): (r: string)
    ensures '/' !in r
    ensures EndsWith(shotRef, r)
    ensures r == shotRef || shotRef[|shotRef| - |r| - 1] == '/'
  {
    var cut := LastIndexOf(shotRef, '/');
    var r := shotRef[cut + 1..];
    assert '/' !in r by {
      forall k | 0 <= k < |r|
        ensures r[k] != '/'
      {
        assert r[k] == shotRef[cut + 1 + k];
      }
    }
    assert |shotRef| - |r| == cut + 1;
    r
  }

  /** A descriptor name without its `.ism` extension (`Path.GetFileNameWithoutExtension`). */
  function BaseName(fileName: string): string
    requires EndsWith(fileName, IsmExtension)
  {
    fileName[..|fileName| - |IsmExtension|]
  }

  /** Whether a file name matches the search pattern `<baseName>*.ismv`. */
  predicate MatchesIsmv(entry: string, baseName: string) {
    && |baseName| + |IsmvExtension| <= |entry|
    && StartsWith(entry, baseName)
    && EndsWith(entry, IsmvExtension)
  }

  /** The position of the first listing entry that matches `<baseName>*.ismv`. */
  function FirstMatch(listing: seq<string>, baseName: string): (r: Option<nat>)
    ensures r.None? <==> forall i :: 0 <= i < |listing| ==> !MatchesIsmv(listing[i], baseName)
    ensures r.Some? ==> r.value < |listing| && MatchesIsmv(listing[r.value], baseName)
    ensures r.Some? ==> forall j :: 0 <= j < r.value ==> !MatchesIsmv(listing[j], baseName)
  {
    if |listing| == 0 then None
    else if MatchesIsmv(listing[0], baseName) then Some(0)
    else
      match FirstMatch(listing[1..], baseName)
      case None => None
      case Some(k) => Some(k + 1)
  }

  /**
   * The file name to use: a `.ism` name is replaced by the first listed
   * `<base>*.ismv` file, or kept when there is none; any other name is used
   * as it is. Searching a folder that cannot be listed throws.
   */
  function ChooseFileName(fileName: string, listing: Option<seq<string>>): (r: Result<string, Fault>)
    ensures !EndsWith(fileName, IsmExtension) ==> r == Success(fileName)
    ensures EndsWith(fileName, IsmExtension) && listing.None? ==> r == Failure(ListingUnavailable)
    ensures EndsWith(fileName, IsmExtension) && listing.Some? ==>
      && r.Success?
      && ((forall i :: 0 <= i < |listing.value| ==> !MatchesIsmv(listing.value[i], BaseName(fileName)))
          ==> r.value == fileName)
      && (forall i :: (0 <= i < |listing.value| && MatchesIsmv(listing.value[i], BaseName(fileName))
                       && forall j :: 0 <= j < i ==> !MatchesIsmv(listing.value[j], BaseName(fileName)))
                      ==> r.value == listing.value[i])
  {
    if !EndsWith(fileName, IsmExtension) then Success(fileName)
    else if listing.None? then Failure(ListingUnavailable)
    else
      match FirstMatch(listing.value, BaseName(fileName))
      case Some(i) => Success(listing.value[i])
      case None => Success(fileName)
  }

  /** The characters after which `Path.Combine` adds no separator. */
  predicate IsSeparator(c: char) {
    c == '\\' || c == '/' || c == ':'
  }

  /** `Path.IsPathRooted`: a leading separator or a drive letter. */
  predicate IsRooted(path: string) {
    || (|path| >= 1 && (path[0] == '\\' || path[0] == '/'))
    || (|path| >= 2 && path[1] == ':')
  }

  /** `Path.Combine(folder, name)` with the Windows separator. */
  function Combine(folder: string, name: string): (r: string)
    ensures EndsWith(r, name)
    ensures IsRooted(name) ==> r == name
    ensures !IsRooted(name) ==> r == folder + name || r == folder + "\\" + name
    ensures r == folder + "\\" + name ==> folder != "" && name != "" && !IsSeparator(folder[|folder| - 1])
    ensures folder != "" && name != "" && !IsRooted(name) ==>
              (r == folder + "\\" + name <==> !IsSeparator(folder[|folder| - 1]))
  {
    if |name| == 0 then folder
    else if |folder| == 0 then name
    else if IsRooted(name) then name
    else if IsSeparator(folder[|folder| - 1]) then folder + name
    else folder + "\\" + name
  }

  /** The file name a reference denotes once `/manifest` is stripped. */
  function RefFileName(shotRef: string): (r: string)
    ensures '/' !in r
  {
    FileNameOf(StripManifest(shotRef))
  }

  /**
   * `ExtractVideoPath`: the input folder combined with the chosen file name
   * for the shot's first resource reference.
   */
  function ExtractVideoPath(shot: Shot, host: Host): (r: Result<string, Fault>)
    ensures |shot.resourceRefs| == 0 ==> r == Failure(MissingResource)
    ensures |shot.resourceRefs| > 0 ==>
              var name := RefFileName(shot.resourceRefs[0]);
              && (r.Failure? <==> EndsWith(name, IsmExtension) && host.listing.None?)
              && (r.Success? && !EndsWith(name, IsmExtension) ==> r.value == Combine(host.inputFolder, name))
              && (EndsWith(name, IsmExtension) && host.listing.Some? ==>
                    r == Success(Combine(host.inputFolder,
                                         match FirstMatch(host.listing.value, BaseName(name))
                                         case Some(i) => host.listing.value[i]
                                         case None => name)))
  {
    if |shot.resourceRefs| == 0 then Failure(MissingResource)
    else
      var chosen :- ChooseFileName(RefFileName(shot.resourceRefs[0]), host.listing);
      Success(Combine(host.inputFolder, chosen))
  }

  /** The file name of `dir/name` is `name` whenever `name` holds no `/`. */
  lemma FileNameOfJoin(dir: string, name: string)
    requires '/' !in name
    ensures FileNameOf(dir + "/" + name) == name
  {
    var s := dir + "/" + name;
    var r := FileNameOf(s);
    assert s[|dir|] == '/';
    assert s[|s| - |name|..] == name;
  }

  /**
   * For a smooth-streaming reference `…/<name>/manifest` the file name is the
   * segment before `/manifest`; for any other reference `…/<name>` it is the
   * last segment.
   */
  lemma RefFileNameOfManifest(dir: string, name: string)
    requires '/' !in name
    ensures RefFileName(dir + "/" + name + ManifestSuffix) == name
  {
    var s := dir + "/" + name + ManifestSuffix;
    assert s[|s| - |ManifestSuffix|..] == ManifestSuffix;
    assert StripManifest(s) + ManifestSuffix == s;
    assert StripManifest(s) == dir + "/" + name;
    FileNameOfJoin(dir, name);
  }

  lemma RefFileNameOfPlainRef(dir: string, name: string)
    requires '/' !in name
    requires !EndsWith(dir + "/" + name, ManifestSuffix)
    ensures RefFileName(dir + "/" + name) == name
  {
    FileNameOfJoin(dir, name);
  }

  /** A reference that is not a `.ism` descriptor resolves the same way whatever the folder holds. */
  lemma NonIsmIgnoresListing(shot: Shot, host: Host, other: Option<seq<string>>)
    requires |shot.resourceRefs| > 0
    requires !EndsWith(RefFileName(shot.resourceRefs[0]), IsmExtension)
    ensures ExtractVideoPath(shot, host) == ExtractVideoPath(shot, host.(listing := other))
    ensures ExtractVideoPath(shot, host) == Success(Combine(host.inputFolder, RefFileName(shot.resourceRefs[0])))
  {
  }

  /**
   * The segmented-stream examples: for the descriptor `clip.ism`, a folder
   * holding `clip_720.ismv` supplies that file, a folder holding no
   * `clip*.ismv` file leaves the descriptor name, and a folder that cannot be
   * listed makes resolution throw.
   */
  lemma SegmentedStreamExamples()
    ensures ChooseFileName("clip.ism", Some(["clip.ism", "clip_720.ismv"])) == Success("clip_720.ismv")
    ensures ChooseFileName("clip.ism", Some(["clip.ism", "other.ismv"])) == Success("clip.ism")
    ensures ChooseFileName("clip.ism", None) == Failure(ListingUnavailable)
  {
    assert EndsWith("clip.ism", IsmExtension);
    assert BaseName("clip.ism") == "clip";
    assert MatchesIsmv("clip_720.ismv", "clip");
    assert !MatchesIsmv("clip.ism", "clip");
    assert !MatchesIsmv("other.ismv", "clip") by {
      assert "other.ismv"[..4][0] != "clip"[0];
    }
  }
}
